=== FILE: README.md ===
# Snake game rules in Dafny

This project models the per-tick rules of a browser Snake game (`index.js`). The model covers:

- the state record: score, snake body with the head first, apples and speed;
- the snake's direction and its follow-the-leader move;
- the three collision questions (self-bite, off the field, apple under the head);
- the tick, which moves first and then asks the questions of the moved body;
- the reactions to a tick's outcome: game over, and eating an apple, which grows the snake, adds a point and speeds the game up.

Everything is an immutable value, and every operation is a pure function or a method. Some other inputs become parameters:

- The field width (`areaSquareWidth`, taken from the window height) is a parameter.
- The cell of each newly spawned apple (`getRandomInt`) is a parameter.
- The periodic timer becomes one flag, `running`, that says whether the tick is armed.

Modules follow the source's factories:

| module | source | content |
|---|---|---|
| `Grid` | cells and directions | `Pos`, `Dir`, `Opposite`, `Shift` |
| `GameState` | `createState` | `State`, `Default`, mutators, `removeApple` |
| `Snake` | `createSnake` | `ChangeDirection`, `ResetDirection`, `Moved` / `GetNewPosition` |
| `Collision` | `createCollisionDetector` | `SnakeEatHimself`, `HeadTouchingBoundaries`, `FirstAppleAt` / `SnakeHeadTouchingAnyApple` |
| `Behaviors` | `createGameBehaviors` | `Game`, prepare/start/stop, `EatApple`, speed curve |
| `GameLoop` | `clock` and the handler wiring | `Tick`, `Steer`, `Step` |
| `Intended` | corrections | the rules as evidently meant (see Findings) |

The model follows the code as written. Four behaviours look unintended. Each one has an as-written member with a counterexample, and a corrected member in module `Intended` with its property proved. `Intended.StepIntended` puts the four corrections together. One more difference in `Intended` is not a correction: a fresh corrected game starts heading right, whereas `prepareGame` keeps the pending direction, so keys pressed after game over carry into the next game as written.

## Model

| member | source | states |
|---|---|---|
| Grid.Opposite | index.js:98-103 | the opposite of a direction is never the direction itself |
| Grid.OppositeInvolution | index.js:98-103 | the opposite table is symmetric: the opposite of the opposite is the direction |
| Grid.Shift | index.js:109-123 | a move goes to an adjacent cell: up gives y-1, right x+1, down y+1, left x-1, and the other coordinate is kept |
| Grid.ShiftProperties | index.js:109-123 | a step followed by the opposite step returns to the start; different directions lead to different cells |
| GameState.DefaultSnakeIsStraight | index.js:42-65 | the default snake has four cells with the head at (3,7), each cell one to the left of the one before (so it faces right); score 0 and no apples |
| GameState.Head | index.js:81 | the head is the first cell of a non-empty body: the body is the head followed by the rest |
| GameState.AddSnakePart | index.js:82 | growth appends a copy of the head; the old body stays in place and the other fields do not change |
| GameState.RemoveApple | index.js:85-88 | an apple survives exactly when it differs from the removed one in both x and y; the list never grows; the removed cell is always gone |
| GameState.RemoveAppleKeepsOrder | index.js:85-88 | the removal distributes over concatenation, so survivors keep their original order |
| Snake.ChangeDirection | index.js:131-136 | the request is taken unless it is the opposite of the current direction, in which case the direction stays; the result is never the current direction's opposite |
| Snake.ResetDirection | index.js:138-140 | resetting always gives `right` |
| Snake.Moved | index.js:106-128 | one move keeps the length; the new head is the old head shifted one cell; `new[i] == old[i-1]` for every i >= 1 |
| Snake.GetNewPosition | index.js:106-128 | the copy-then-loop implementation yields exactly the move of `Moved` |
| Snake.GrowThenMove | index.js:106-128 | after a head copy is appended, the next move keeps the whole pre-growth body behind the new head: one cell longer, and the old tail is kept |
| Snake.SteerThenMove | index.js:131-136 | after one request the head moves one cell in the requested direction, or keeps the old direction if the request was the opposite one |
| Snake.SingleRequestSparesNeck | index.js:131-136 | a single request never drives the head onto the neck of a snake that last moved in the current direction |
| Collision.SnakeEatHimself | index.js:234-243 | true exactly when some segment at index >= 1 equals the head; false for an empty body |
| Collision.HeadTouchingBoundaries | index.js:245-254 | true exactly when the head lies outside [0,W) x [0,W) |
| Collision.LeavesOnlyAcrossEdge | index.js:245-254 | a head that leaves the field in one step was on the edge it crossed |
| Collision.FirstAppleAt | index.js:256-268 | gives the index of the first apple on the head's cell, with no match before it, or nothing exactly when no apple is there |
| Collision.SnakeHeadTouchingAnyApple | index.js:256-268 | the early-stopping scan returns the first matching apple, or nothing; with no apples it returns nothing, even for an empty snake |
| Collision.FirstIsUnique | index.js:256-268 | a match with no earlier match is the one the lookup reports |
| Collision.AppleFoundIgnoresOrder | index.js:256-268 | whether an apple is found does not depend on the order of the apple list |
| Behaviors.CalculateSpeedBasedOnScore | index.js:334-340 | the new speed is at least 40; it never exceeds a current speed of 40 or more; it is strictly lower when the current speed is above 40 and the score is positive; it equals current - 2*score when that is at least 40, and 40 otherwise |
| Behaviors.PrepareGame | index.js:281-288 | preparing restores the default record but keeps the direction and the timer as they are |
| Behaviors.StartGame | index.js:290-294 | starting appends the spawned apple, arms the timer and changes nothing else |
| Behaviors.StopGame | index.js:296-311 | game over disarms the timer, restores direction `right` and leaves the state record alone |
| Behaviors.EatApple | index.js:313-325 | eating adds exactly 1 to the score and appends a head copy; it removes apples with the as-written filter, then appends the spawned one; it sets the speed to max(40, old speed - new score*2), so the speed stays >= 40 and never rises from 40 or more; it re-arms the timer |
| Behaviors.PrepareIsConsistent | index.js:281-288 | a prepared game has length 4 + score and its speed on the compounded curve |
| Behaviors.EatFollowsSpeedCurve | index.js:313-340 | eating moves a consistent state to the next point of the curve max(40, 220 - n(n+1)) and keeps the length at 4 + score |
| Behaviors.CompoundedSpeedValues | index.js:334-340 | the curve in numbers: 220, 218, 214 after 0, 1, 2 apples; the floor of 40 is reached after 13 apples |
| Behaviors.CompoundedSpeedMonotone | index.js:334-340 | the compounded curve never rises and stays within [40, 220] |
| GameLoop.Tick | index.js:203-223 | the snake is replaced by the moved body before any check; each check reads the post-move head; collision means the new head is on a cell the body keeps; the apple report is the apple on the new head |
| GameLoop.TickCollision | index.js:234-243 | self-bite after a move holds exactly when the new head lands on one of the old cells except the old tail |
| GameLoop.Steer | index.js:157-161 | a direction key changes only the direction, through `changeDirection` |
| GameLoop.Step | index.js:175-223 | collision and apple handlers fire independently, so the game runs afterwards exactly when an apple was eaten or it ran and did not collide; a collision resets the direction; the new body is the moved body, plus a copy of the new head at the tail when an apple was eaten; eating adds one to the score, filters the apples with the as-written `removeApple` and appends the spawned one, and sets the speed to max(40, old speed - 2 * new score); otherwise apples and speed are unchanged |
| GameLoop.StepIgnoresWidth | index.js:214-217 | the boundary result triggers nothing: a step's result does not depend on the field width |
| GameLoop.StepIsConsistent | index.js:203-223 | a step keeps the length at 4 + score and the speed on the compounded curve, and never lowers the score |
| GameLoop.StepKeepsOneApple | index.js:313-332 | with one apple in play there is exactly one after every step, and after eating it is the spawned one |
| GameLoop.FirstTickScenario | index.js:203-223 | from the default snake heading right, one tick gives `[(4,7),(3,7),(2,7),(1,7)]`, no collision and no apple |
| GameLoop.AppleScenario | index.js:313-325 | with an apple at (4,7), one step eats it: five cells with the head copy at the tail, score 1, speed 218, only the spawned apple left |
| GameLoop.BoundaryScenario | index.js:214-217 | with width 20 a head at (20,5) is reported outside, and the game goes on unchanged |
| GameLoop.DoubleTurnReverses | index.js:131-136 | as written, keys `up` then `left` while heading right set direction `left`; the next tick bites the neck and ends the game |
| GameLoop.CollisionWithAppleKeepsRunning | index.js:209-222 | as written, a collision on an apple's cell stops the game and then re-arms it, so it keeps running |
| Intended.RemoveAppleExact | index.js:85-88 | corrected removal: keeps exactly the apples not on the removed cell, removing all its copies and nothing else |
| Intended.RemoveAppleDropsNeighbours | index.js:85-88 | as written, removing (4,7) from `[(4,7),(4,2)]` leaves nothing; the exact removal keeps (4,2) |
| Intended.RemovalsAgreeWithoutNeighbours | index.js:85-88 | both removals agree when no other apple shares a row or a column with the removed one |
| Intended.SpeedForScore | index.js:334-340 | corrected speed: 220 - 2*score while that is at least 40, and 40 from 90 points on; always within [40, 220] |
| Intended.SpeedForScoreMonotone | index.js:334-340 | the corrected speed never rises with the score and strictly falls until the floor |
| Intended.SpeedCurvesDiffer | index.js:334-340 | the compounded and linear curves differ from two apples on (214 against 216); they reach the floor after 13 and 90 apples |
| Intended.Request | index.js:131-136 | corrected guard against the last move: a request is refused exactly when it reverses that move, and a safe steering stays safe |
| Intended.RequestAllIsSafe | index.js:131-136 | any number of keys between two ticks keeps the steering safe |
| Intended.DoubleTurnRefused | index.js:131-136 | keys `up`, `left` while heading right give pending `up` under the corrected guard, but `left` as written |
| Intended.PrepareIntended | index.js:281-288 | a corrected fresh game: default state, safe steering, the neck behind the head, not running; unlike `prepareGame` it resets the pending direction to right |
| Intended.StartIntended | index.js:290-294 | corrected start: appends the spawned apple, arms the tick, leaves snake and steering alone, so the neck stays behind the head |
| Intended.EatAppleIntended | index.js:313-317 | corrected eating: score +1, head copy appended, exact removal, speed from the score alone |
| Intended.StepIntended | index.js:203-223 | corrected step: the game runs afterwards exactly when it ran and did not collide; a collision leaves the moved state; otherwise an apple on the new head is eaten with the corrected `EatAppleIntended`, and with no apple the moved state is kept; the move is recorded as the last move |
| Intended.StepIntendedSparesNeck | index.js:131-136 | under the corrected guard the head never turns onto the neck, and this still holds after the step whatever keys follow |
| Intended.StepIntendedIsConsistent | index.js:313-340 | the corrected game keeps its length at 4 + score and its speed at `SpeedForScore(score)` |
| Intended.CollisionWithAppleEnds | index.js:209-222 | the collision-on-an-apple case ends the corrected game |

## Left out

- The DOM panels, the canvas renderer, `requestAnimationFrame` and the console banner (index.js:350-439, 513-543): presentation only.
- The keyboard and MIDI controllers (index.js:441-511): input-device adapters. A key press is modelled as `GameLoop.Steer`.
- `setInterval`/`clearInterval` and the `gameInterval` field (index.js:193-201): timer plumbing. A game's `running` flag records only whether the tick is armed.
- The high score (index.js:76-77, 304-307): browser storage, compared as a string or null by JavaScript coercion.
- `getRandomInt` (index.js:545-548): floating-point randomness. A spawned apple is an arbitrary cell parameter and is not constrained to [0, W-1].
- `areaSquareWidth` (index.js:7): derived from the window height. The width is an integer parameter.
- Object aliasing through `cloneDeep` and `push(state.snake[0])`: cells are immutable values. The aliased head copy is overwritten on the next move, so values give the same result.
- Direction strings other than the four names: `Dir` has only the four directions. An unknown string would leave the head in place.
- `getScore`, `getSnake`, `getApples`, `getSpeed`, `addApple`, `setSnake`, `setSpeed`, `addScorePoint` and `resetState` are record reads and updates with no rows of their own. `getSnakeHead` is `GameState.Head`. Their effect is stated by the contracts of `Behaviors.EatApple`, `Behaviors.StartGame`, `Behaviors.PrepareGame` and `GameLoop.Tick`.
- `getNewPosition` and `headTouchingBoundaries` throw on an empty snake, because they read `x`/`y` of an undefined head. Their models require a non-empty body.
- `snakeHeadTouchingAnyApple` reads the head only for an existing apple, so it throws on an empty snake only when there are apples. Its model requires a non-empty body or an empty apple list. `snakeEatHimself` never reads the head of an empty body, so its model takes any body.
- GameState.Head: requires a non-empty body. On an empty snake `getSnakeHead` returns `undefined` rather than throwing, and a cell cannot be `undefined`.
- GameState.AddSnakePart: requires a non-empty body. On an empty snake `addSnakePart` pushes `undefined`, which is not a cell; every later move would then throw.
- Behaviors.StopGame: does not state the high-score update and the panels shown at game over, because both are storage and presentation. `running` also assumes at most one armed interval; `clearInterval` only clears the handle currently stored (index.js:199).
- Behaviors.PrepareGame: `resetState` also sets the stored interval handle back to 0 (index.js:64, 78). An interval still armed at that moment is forgotten, not cleared. The one-flag model cannot show that, so "keeps the timer" holds only when no interval is armed.

## Findings

| source | as written | input that shows it | evidently intended | confidence | as-written member | corrected member |
|---|---|---|---|---|---|---|
| index.js:85-88 | the keep test is `x !== x' && y !== y'`, so apples in the eaten apple's row or column are dropped too | apples `[(4,7),(4,2)]`, remove `(4,7)`: the list becomes empty | remove only the apples on the eaten cell | high that the test is wrong; not executed. With one apple in play it never shows (`GameLoop.StepKeepsOneApple`) | Intended.RemoveAppleDropsNeighbours | Intended.RemoveAppleExact |
| index.js:334-340 | the step is taken off the current speed, so after n apples the speed is max(40, 220 - n(n+1)) | after two apples: 214 instead of 216; the floor comes after 13 apples | speed as a function of the score: max(40, 220 - 2*score) | low, a curve that compounds might be deliberate; not executed | Behaviors.CompoundedSpeedValues | Intended.SpeedForScore |
| index.js:131-136 | the reversal guard compares with the pending direction, not the last move | heading right, keys `up` then `left` before the next tick: the head moves onto the neck and the game ends | refuse any request that reverses the last move | medium; not executed | GameLoop.DoubleTurnReverses | Intended.Request |
| index.js:209-222 | the collision and apple handlers are independent `if`s, and `eatApple` restarts the timer | head moving up from (3,7) onto body cell (3,6), which holds an apple: game over, then the game keeps running. A restart then loses the running interval's handle (`resetState`, index.js:78) and `startGame` arms a second one (index.js:194); the next game over clears only the second, so the first keeps ticking | a collision ends the game whatever else the tick finds | medium; not executed | GameLoop.CollisionWithAppleKeepsRunning | Intended.StepIntended |

=== FILE: behaviors.dfy ===
/**
  The reactions of `createGameBehaviors`: preparing, starting and stopping a
  game, eating an apple, and the speed curve. A game is the state record
  together with the snake's direction and whether the tick interval is
  armed; the interval itself, the canvas and the panels are not modelled.
 */
module Behaviors {

  import opened Grid
  import opened GameState
  import opened Snake

  /** The driver's view of one game: the state record, the snake's current
      direction, and whether the periodic tick is armed. */
  datatype Game = Game(state: State, dir: Dir, running: bool)

  /** The speed floor in milliseconds; the source calls it `maxSpeed` since
      the smallest interval is the fastest game. */
  const MaxSpeed: int := 40

  /** Milliseconds taken off per point of score. */
  const SpeedStep: int := 2

  function Max(a: int, b: int): int
  {
    if a < b then b else a
  }

  /** `calculateSpeedBasedOnScore`: the CURRENT speed minus score times the
      step, raised to the floor if it falls below it. */
  function CalculateSpeedBasedOnScore(current: int, score: nat): (v: int)
    ensures v >= MaxSpeed
    ensures current >= MaxSpeed ==> v <= current
    ensures current > MaxSpeed && score >= 1 ==> v < current
    ensures current - score * SpeedStep >= MaxSpeed ==> v == current - score * SpeedStep
    ensures current - score * SpeedStep < MaxSpeed ==> v == MaxSpeed
  {
    var speed := current - score * SpeedStep;
    if speed < MaxSpeed then MaxSpeed else speed
  }

  /** `prepareGame`: a fresh state record. The direction is NOT reset here
      (only `stopGame` resets it) and the interval is not touched. */
  function PrepareGame(g: Game): (r: Game)
    ensures r.state == Default && r.dir == g.dir && r.running == g.running
  {
    g.(state := ResetState())
  }

  /** `startGame`: spawn one apple at the given cell and arm the interval. */
  function StartGame(g: Game, spawn: Pos): (r: Game)
    ensures r.running && r.dir == g.dir
    ensures r.state.apples == g.state.apples + [spawn]
    ensures r.state.snake == g.state.snake && r.state.score == g.state.score
    ensures r.state.speed == g.state.speed
  {
    g.(state := AddApple(g.state, spawn), running := true)
  }

  /** `stopGame`: disarm the interval and restore the start direction; the
      state record is left as it is (the high score is not modelled). */
  function StopGame(g: Game): (r: Game)
    ensures !r.running && r.dir == Right && r.state == g.state
  {
    g.(dir := ResetDirection(g.dir), running := false)
  }

  /** `eatApple`: remove the eaten apple (with the as-written filter), append
      a copy of the head, add a point, recompute the speed from the current
      speed and the NEW score, re-arm the interval, and spawn an apple at
      the given cell. */
  function EatApple(g: Game, eaten: Pos, spawn: Pos): (r: Game)
    requires |g.state.snake| >= 1
    ensures r.state.score == g.state.score + 1
    ensures r.state.snake == g.state.snake + [g.state.snake[0]]
    ensures r.state.apples == RemoveApple(g.state.apples, eaten) + [spawn]
    ensures r.state.speed == Max(MaxSpeed, g.state.speed - r.state.score * SpeedStep)
    ensures r.state.speed >= MaxSpeed
    ensures g.state.speed >= MaxSpeed ==> r.state.speed <= g.state.speed
    ensures g.state.speed > MaxSpeed ==> r.state.speed < g.state.speed
    ensures r.running && r.dir == g.dir
  {
    var removed := RemoveAppleFrom(g.state, eaten);
    var grown := AddSnakePart(removed);
    var scored := AddScorePoint(grown);
    var sped := SetSpeed(scored, CalculateSpeedBasedOnScore(scored.speed, scored.score));
    g.(state := AddApple(sped, spawn), running := true)
  }

  /** The speed the as-written rules reach after `n` apples in a fresh game:
      each apple subtracts twice the new score from the current speed, so
      the decrements add up to n * (n + 1). */
  function CompoundedSpeed(n: nat): int
  {
    Max(MaxSpeed, DefaultSpeed - n * (n + 1))
  }

  /** What every state of a game satisfies: four cells plus one per point,
      and the speed on the compounded curve of its score. */
  predicate Consistent(s: State)
  {
    |s.snake| == 4 + s.score && s.speed == CompoundedSpeed(s.score)
  }

  /** A freshly prepared game starts on the curve at the default speed. */
  lemma PrepareIsConsistent(g: Game)
    ensures Consistent(PrepareGame(g).state)
    ensures PrepareGame(g).state.speed == DefaultSpeed
  {
  }

  /** Eating keeps a consistent state consistent: the length grows with the
      score, and the new speed is the next point of the compounded curve. */
  lemma EatFollowsSpeedCurve(g: Game, eaten: Pos, spawn: Pos)
    requires Consistent(g.state)
    ensures Consistent(EatApple(g, eaten, spawn).state)
  {
  }

  /** The compounded curve: it starts at 220, reaches the floor after only
      13 apples, and from there stays on it. */
  lemma CompoundedSpeedValues()
    ensures CompoundedSpeed(0) == 220 && CompoundedSpeed(1) == 218
    ensures CompoundedSpeed(2) == 214 && CompoundedSpeed(12) == 64
    ensures CompoundedSpeed(13) == MaxSpeed
  {
  }

  /** The compounded curve never rises and never leaves [40, 220]. */
  lemma CompoundedSpeedMonotone(a: nat, b: nat)
    requires a <= b
    ensures MaxSpeed <= CompoundedSpeed(b) <= CompoundedSpeed(a) <= DefaultSpeed
  {
  }
}

=== FILE: collision.dfy ===
/**
  The three questions of `createCollisionDetector`, each asked of the body
  as it stands in the state (after the tick's move).
 */
module Collision {

  import opened Options
  import opened Grid
  import opened GameState

  /** Reference definition: some segment after the head occupies the head's
      cell. */
  predicate EatsItself(body: seq<Pos>)
  {
    exists i :: 1 <= i < |body| && body[i] == body[0]
  }

  /** `snakeEatHimself`, following the source: scan the segments after the
      head with `some`, remembering the last comparison. An empty body gives
      `false` without reading the head, since its tail slice is empty. */
  method SnakeEatHimself(body: seq<Pos>) returns (result: bool)
    ensures result <==> EatsItself(body)
  {
    result := false;
    if |body| == 0 {
      return;
    }
    var head := body[0];
    var i := 1;
    while i < |body| && !result
      invariant 1 <= i <= |body|
      invariant result ==> 2 <= i && body[i - 1] == head
      invariant !result ==> forall k :: 1 <= k < i ==> body[k] != head
    {
      result := body[i] == head;
      i := i + 1;
    }
  }

  /** The head's cell lies on the square field of side `width`. */
  predicate Inside(p: Pos, width: int)
  {
    0 <= p.x < width && 0 <= p.y < width
  }

  /** `headTouchingBoundaries`: the head has left the field [0, width) x
      [0, width). The width is the layout-derived `areaSquareWidth`. */
  function HeadTouchingBoundaries(body: seq<Pos>, width: int): (outside: bool)
    requires |body| >= 1
    ensures outside <==> !Inside(body[0], width)
  {
    body[0].x < 0 || body[0].x >= width || body[0].y < 0 || body[0].y >= width
  }

  /** A head that was inside the field and steps outside it must have been
      on the edge it crossed. */
  lemma LeavesOnlyAcrossEdge(p: Pos, d: Dir, width: int)
    requires Inside(p, width) && !Inside(Shift(p, d), width)
    ensures d == Up ==> p.y == 0
    ensures d == Down ==> p.y == width - 1
    ensures d == Left ==> p.x == 0
    ensures d == Right ==> p.x == width - 1
  {
  }

  /** Reference definition of `snakeHeadTouchingAnyApple`: the index of the
      first apple, in list order, on the head's cell, or nothing. */
  function FirstAppleAt(apples: seq<Pos>, head: Pos): (k: Option<nat>)
    ensures k.Some? ==> k.value < |apples| && apples[k.value] == head
    ensures k.Some? ==> forall j :: 0 <= j < k.value ==> apples[j] != head
    ensures k.None? <==> head !in apples
  {
    if |apples| == 0 then None
    else if apples[0] == head then Some(0)
    else
      match FirstAppleAt(apples[1..], head)
      case None => None
      case Some(j) => Some(j + 1)
  }

  /** `snakeHeadTouchingAnyApple`, following the source: walk the apples with
      `some`, stop at the first one whose x and y both equal the head's, and
      return it (or nothing). The head is read only inside the callback, so
      an empty snake is harmless when there are no apples; with apples it
      would throw. */
  method SnakeHeadTouchingAnyApple(s: State) returns (found: Option<Pos>)
    requires |s.snake| >= 1 || |s.apples| == 0
    ensures |s.apples| == 0 ==> found == None
    ensures |s.snake| >= 1 ==> (found.Some? <==> FirstAppleAt(s.apples, Head(s)).Some?)
    ensures |s.snake| >= 1 && found.Some? ==>
              found.value == s.apples[FirstAppleAt(s.apples, Head(s)).value]
  {
    found := None;
    if |s.apples| == 0 {
      return;
    }
    var head := Head(s);
    var i := 0;
    while i < |s.apples| && found.None?
      invariant 0 <= i <= |s.apples|
      invariant found.None? ==> forall j :: 0 <= j < i ==> s.apples[j] != head
      invariant found.Some? ==> 1 <= i && s.apples[i - 1] == head && found.value == s.apples[i - 1]
      invariant found.Some? ==> forall j :: 0 <= j < i - 1 ==> s.apples[j] != head
    {
      if s.apples[i].x == head.x && s.apples[i].y == head.y {
        found := Some(s.apples[i]);
      }
      i := i + 1;
    }
    if found.Some? {
      FirstIsUnique(s.apples, head, i - 1);
    } else {
      assert head !in s.apples;
    }
  }

  /** The first match is unique: an index holding the head with no earlier
      match is the one `FirstAppleAt` reports. */
  lemma FirstIsUnique(apples: seq<Pos>, head: Pos, k: nat)
    requires k < |apples| && apples[k] == head
    requires forall j :: 0 <= j < k ==> apples[j] != head
    ensures FirstAppleAt(apples, head) == Some(k)
  {
  }

  /** Whether an apple is found does not depend on the order of the apple
      list: it is exact coordinate membership. */
  lemma AppleFoundIgnoresOrder(a: seq<Pos>, b: seq<Pos>, head: Pos)
    requires multiset(a) == multiset(b)
    ensures FirstAppleAt(a, head).Some? <==> FirstAppleAt(b, head).Some?
    ensures head in a ==> FirstAppleAt(a, head) != None
  {
    assert head in a <==> head in multiset(a);
    assert head in b <==> head in multiset(b);
  }
}

=== FILE: gameloop.dfy ===
/**
  The tick of `createGameLoop` (`clock`) and the way `createGameInteractions`
  wires its outcomes to the behaviours: a collision stops the game, an
  eaten apple triggers `eatApple`, and a direction key calls
  `changeDirection`.
 */
module GameLoop {

  import opened Options
  import opened Grid
  import opened GameState
  import opened Snake
  import opened Collision
  import opened Behaviors

  /** What one run of `clock` observed: the state after the move, whether
      the snake bit itself, whether its head is off the field, and the apple
      under the head, if any. */
  datatype Report = Report(state: State, collided: bool, outside: bool, apple: Option<Pos>)

  /** The head's next cell, seen from before the move. */
  function NextHead(s: State, d: Dir): Pos
    requires |s.snake| >= 1
  {
    Shift(s.snake[0], d)
  }

  /** `clock` without its handlers: replace the snake with the moved body
      first, then ask every question of the moved body. */
  function Tick(s: State, d: Dir, width: int): (t: Report)
    requires |s.snake| >= 1
    ensures t.state == s.(snake := Moved(s.snake, d))
    ensures t.collided <==> NextHead(s, d) in s.snake[..|s.snake| - 1]
    ensures t.outside <==> !Inside(NextHead(s, d), width)
    ensures t.apple.Some? <==> NextHead(s, d) in s.apples
    ensures t.apple.Some? ==> t.apple.value == NextHead(s, d)
  {
    var moved := SetSnake(s, Moved(s.snake, d));
    var found := FirstAppleAt(moved.apples, Head(moved));
    TickCollision(s.snake, d);
    Report(moved, EatsItself(moved.snake), HeadTouchingBoundaries(moved.snake, width),
           if found.Some? then Some(moved.apples[found.value]) else None)
  }

  /** Self-collision after a move is decided by the old body: the new head
      lands on one of the cells the body keeps, which are all but the old
      tail. */
  lemma TickCollision(body: seq<Pos>, d: Dir)
    requires |body| >= 1
    ensures EatsItself(Moved(body, d)) <==> Shift(body[0], d) in body[..|body| - 1]
  {
    var m := Moved(body, d);
    if Shift(body[0], d) in body[..|body| - 1] {
      var j :| 0 <= j < |body| - 1 && body[j] == Shift(body[0], d);
      assert m[j + 1] == m[0];
    }
  }

  /** A direction key: `changeDirection` on the game's direction. */
  function Steer(g: Game, requested: Dir): (r: Game)
    ensures r.state == g.state && r.running == g.running
    ensures r.dir == ChangeDirection(g.dir, requested)
  {
    g.(dir := ChangeDirection(g.dir, requested))
  }

  /** One interval of the running game as the source wires it: the tick, then
      the collision handler (`stopGame`) if the snake bit itself, then,
      independently, the apple handler (`eatApple`) if an apple is under the
      head. The boundary result is computed but has no handler. The apple
      that `eatApple` spawns is the `spawn` cell. */
  function Step(g: Game, width: int, spawn: Pos): (r: Game)
    requires |g.state.snake| >= 1
    ensures var collides := NextHead(g.state, g.dir) in g.state.snake[..|g.state.snake| - 1];
            var eats := NextHead(g.state, g.dir) in g.state.apples;
            && r.running == (eats || (g.running && !collides))
            && r.dir == (if collides then Right else g.dir)
            && |r.state.snake| == |g.state.snake| + (if eats then 1 else 0)
            && r.state.score == g.state.score + (if eats then 1 else 0)
            && r.state.snake[0] == NextHead(g.state, g.dir)
            && r.state.snake == Moved(g.state.snake, g.dir) + (if eats then [NextHead(g.state, g.dir)] else [])
            && (!eats ==> r.state.apples == g.state.apples && r.state.speed == g.state.speed)
            && (eats ==> |r.state.apples| >= 1 && r.state.apples[|r.state.apples| - 1] == spawn
                         && NextHead(g.state, g.dir) !in r.state.apples[..|r.state.apples| - 1])
            && (eats && g.state.speed >= MaxSpeed ==> MaxSpeed <= r.state.speed <= g.state.speed)
            && (eats ==> r.state.apples == RemoveApple(g.state.apples, NextHead(g.state, g.dir)) + [spawn]
                         && r.state.speed == Max(MaxSpeed, g.state.speed - r.state.score * SpeedStep))
  {
    var t := Tick(g.state, g.dir, width);
    var afterTick := g.(state := t.state);
    var afterCollision := if t.collided then StopGame(afterTick) else afterTick;
    if t.apple.Some? then EatApple(afterCollision, t.apple.value, spawn) else afterCollision
  }

  /** The boundary check triggers nothing: the result of a step is the same
      whatever the field width, even when the head has left the field. */
  lemma StepIgnoresWidth(g: Game, width1: int, width2: int, spawn: Pos)
    requires |g.state.snake| >= 1
    ensures Step(g, width1, spawn) == Step(g, width2, spawn)
  {
  }

  /** A step keeps a consistent state consistent: length four plus score,
      speed on the compounded curve (so never below 40 and never rising). */
  lemma StepIsConsistent(g: Game, width: int, spawn: Pos)
    requires |g.state.snake| >= 1 && Consistent(g.state)
    ensures Consistent(Step(g, width, spawn).state)
    ensures Step(g, width, spawn).state.score >= g.state.score
  {
    var t := Tick(g.state, g.dir, width);
    var afterTick := g.(state := t.state);
    var afterCollision := if t.collided then StopGame(afterTick) else afterTick;
    if t.apple.Some? {
      EatFollowsSpeedCurve(afterCollision, t.apple.value, spawn);
    }
  }

  /** In play the apple list holds exactly one apple (`startGame` spawns
      one, `eatApple` removes the eaten one and spawns one). With a single
      apple the as-written filter removes just that apple, so its
      both-coordinates defect cannot show during a game. */
  lemma StepKeepsOneApple(g: Game, width: int, spawn: Pos)
    requires |g.state.snake| >= 1 && |g.state.apples| == 1
    ensures |Step(g, width, spawn).state.apples| == 1
    ensures NextHead(g.state, g.dir) in g.state.apples ==>
              Step(g, width, spawn).state.apples == [spawn]
  {
  }

  /** First tick of a fresh game heading right: the body slides one cell
      right, no collision, no apple. */
  lemma FirstTickScenario(width: int)
    ensures var t := Tick(Default, Right, width);
            && t.state.snake == [Pos(4, 7), Pos(3, 7), Pos(2, 7), Pos(1, 7)]
            && !t.collided && t.apple == None
  {
  }

  /** An apple in front of a fresh snake: the tick reports it, and after
      `eatApple` the body has five cells (the duplicated head at the tail),
      the score is 1, the speed 218, and only the spawned apple remains. */
  lemma AppleScenario(spawn: Pos)
    ensures var g := Game(Default.(apples := [Pos(4, 7)]), Right, true);
            var t := Tick(g.state, g.dir, 20);
            var r := Step(g, 20, spawn);
            && t.apple == Some(Pos(4, 7))
            && r.state.snake == [Pos(4, 7), Pos(3, 7), Pos(2, 7), Pos(1, 7), Pos(4, 7)]
            && r.state.apples == [spawn] && r.state.score == 1 && r.state.speed == 218
            && r.running
  {
    var g := Game(Default.(apples := [Pos(4, 7)]), Right, true);
    var t := Tick(g.state, g.dir, 20);
    assert NextHead(g.state, Right) == Pos(4, 7);
    assert Pos(4, 7) !in g.state.snake[..3];
    assert t.state.snake == [Pos(4, 7), Pos(3, 7), Pos(2, 7), Pos(1, 7)];
    assert RemoveApple([Pos(4, 7)], Pos(4, 7)) == [];
    var r := EatApple(g.(state := t.state), Pos(4, 7), spawn);
    assert Step(g, 20, spawn) == r;
  }

  /** With a field of width 20, moving the head to (20, 5) is reported as
      outside the field, yet the game goes on as if nothing happened. */
  lemma BoundaryScenario()
    ensures var s := Default.(snake := [Pos(19, 5), Pos(18, 5)]);
            var g := Game(s, Right, true);
            && Tick(s, Right, 20).outside
            && Step(g, 20, Pos(0, 0)) == Game(s.(snake := [Pos(20, 5), Pos(19, 5)]), Right, true)
  {
  }

  /** The guard compares with the pending direction, so two keys within one
      interval reverse the snake: heading right, `up` then `left` leaves the
      direction `left`, and the next tick drives the head into the neck and
      ends a fresh game on its first move. */
  lemma DoubleTurnReverses()
    ensures var g := Steer(Steer(Game(Default, Right, true), Up), Left);
            && g.dir == Left
            && Tick(g.state, g.dir, 20).collided
            && !Step(g, 20, Pos(0, 0)).running
  {
    assert Pos(2, 7) == Default.snake[..3][1];
  }

  /** Collision and apple handlers are independent: when the head lands on
      an apple lying on the body, `stopGame` runs and then `eatApple`
      re-arms the interval, so the game keeps running after game over. */
  lemma CollisionWithAppleKeepsRunning()
    ensures var s := Default.(snake := [Pos(3, 7), Pos(4, 7), Pos(4, 6), Pos(3, 6), Pos(2, 6)],
                              apples := [Pos(3, 6)]);
            var g := Game(s, Up, true);
            && Tick(s, Up, 20).collided && Tick(s, Up, 20).apple == Some(Pos(3, 6))
            && Step(g, 20, Pos(0, 0)).running
  {
    var s := Default.(snake := [Pos(3, 7), Pos(4, 7), Pos(4, 6), Pos(3, 6), Pos(2, 6)],
                      apples := [Pos(3, 6)]);
    assert Pos(3, 6) == s.snake[..4][3];
  }
}

=== FILE: grid.dfy ===
/** The Option type used for "an apple was found" / "no apple" results. */
module Options {

  datatype Option<+T> = None | Some(value: T)
}

/**
  Cells of the square playing field and the four directions of movement.
  A cell is an unbounded integer pair: the game never clamps or wraps a
  coordinate, so a head that leaves the field simply gets a coordinate
  below 0 or at least the field width.
 */
module Grid {

  /** A grid cell `{ x, y }`; `y` grows downwards, as on the canvas. */
  datatype Pos = Pos(x: int, y: int)

  /** The four direction names the snake accepts. */
  datatype Dir = Up | Right | Down | Left

  /** The `oppositeDirections` table of `createSnake`. */
  function Opposite(d: Dir): (o: Dir)
    ensures o != d
  {
    match d
    case Left => Right
    case Up => Down
    case Right => Left
    case Down => Up
  }

  function Abs(n: int): nat
  {
    if n < 0 then -n else n
  }

  /** Two cells that share a side. */
  predicate Adjacent(p: Pos, q: Pos)
  {
    Abs(p.x - q.x) + Abs(p.y - q.y) == 1
  }

  /** The cell one step from `p` in direction `d`: up decreases y, right
      increases x, down increases y, left decreases x. */
  function Shift(p: Pos, d: Dir): (q: Pos)
    ensures Adjacent(p, q)
    ensures d == Up ==> q == Pos(p.x, p.y - 1)
    ensures d == Right ==> q == Pos(p.x + 1, p.y)
    ensures d == Down ==> q == Pos(p.x, p.y + 1)
    ensures d == Left ==> q == Pos(p.x - 1, p.y)
  {
    match d
    case Up => Pos(p.x, p.y - 1)
    case Right => Pos(p.x + 1, p.y)
    case Down => Pos(p.x, p.y + 1)
    case Left => Pos(p.x - 1, p.y)
  }

  /** Opposite is an involution: the table is symmetric. */
  lemma OppositeInvolution(d: Dir)
    ensures Opposite(Opposite(d)) == d
  {
  }

  /** A step followed by a step in the opposite direction returns to the
      start, and different directions lead to different cells. */
  lemma ShiftProperties(p: Pos, d: Dir, e: Dir)
    ensures Shift(Shift(p, d), Opposite(d)) == p
    ensures Shift(p, d) == Shift(p, e) <==> d == e
  {
  }
}

=== FILE: intended.dfy ===
/**
  The rules as they are evidently meant to work, next to the as-written
  rules of the other modules. Each definition here corrects one defect
  the as-written model exhibits:
  - removal of the eaten apple by exact cell (`removeApple` as written
    also drops apples sharing a row or a column with it);
  - speed as a function of the score alone (as written, the step is taken
    off the current speed, so the decrements compound);
  - the reversal guard checked against the direction of the last move (as
    written, two keys within one interval can reverse the snake);
  - game over ends the game even when an apple lies on the collision cell
    (as written, `eatApple` re-arms the interval after `stopGame`).
  The tick itself (`GameLoop.Tick`) is shared with the as-written model.
  One further difference is not a correction of a defect: a fresh corrected
  game (`PrepareIntended`) starts heading right, whereas `prepareGame` keeps
  the pending direction, so keys pressed after game over carry into the
  next game as written (only `stopGame` resets it to right).
 */
module Intended {

  import opened Options
  import opened Grid
  import opened GameState
  import opened Snake
  import opened Behaviors
  import opened GameLoop

  // ----- Removal by exact cell ---------------------------------------------

  /** Keep every apple except those on exactly the removed cell, in order. */
  function RemoveAppleExact(apples: seq<Pos>, removing: Pos): (r: seq<Pos>)
    ensures forall p :: p in r <==> p in apples && p != removing
    ensures multiset(r) == multiset(apples)[removing := 0]
    ensures |r| == |apples| - multiset(apples)[removing]
  {
    if |apples| == 0 then []
    else
      assert apples == [apples[0]] + apples[1..];
      (if apples[0] != removing then [apples[0]] else []) + RemoveAppleExact(apples[1..], removing)
  }

  /** The as-written filter drops an apple that merely shares a column with
      the eaten one; the exact removal keeps it. */
  lemma RemoveAppleDropsNeighbours()
    ensures RemoveApple([Pos(4, 7), Pos(4, 2)], Pos(4, 7)) == []
    ensures RemoveAppleExact([Pos(4, 7), Pos(4, 2)], Pos(4, 7)) == [Pos(4, 2)]
  {
  }

  /** Both removals agree whenever no other apple shares a row or a column
      with the removed cell, which is the case in play (one apple at a
      time). */
  lemma {:induction false} RemovalsAgreeWithoutNeighbours(apples: seq<Pos>, removing: Pos)
    requires forall p :: p in apples && p != removing ==> KeptBy(p, removing)
    ensures RemoveApple(apples, removing) == RemoveAppleExact(apples, removing)
  {
    if |apples| > 0 {
      assert forall p :: p in apples[1..] ==> p in apples;
      RemovalsAgreeWithoutNeighbours(apples[1..], removing);
    }
  }

  // ----- Speed from the score alone ----------------------------------------

  /** The speed for a score: the start speed minus two milliseconds per
      point, never below the floor. */
  function SpeedForScore(score: nat): (v: int)
    ensures MaxSpeed <= v <= DefaultSpeed
    ensures score * SpeedStep <= DefaultSpeed - MaxSpeed ==> v == DefaultSpeed - score * SpeedStep
    ensures score * SpeedStep >= DefaultSpeed - MaxSpeed ==> v == MaxSpeed
  {
    Max(MaxSpeed, DefaultSpeed - score * SpeedStep)
  }

  /** The corrected curve never rises, and strictly falls with the score
      until it reaches the floor. */
  lemma SpeedForScoreMonotone(a: nat, b: nat)
    requires a < b
    ensures SpeedForScore(b) <= SpeedForScore(a)
    ensures SpeedForScore(a) > MaxSpeed ==> SpeedForScore(b) < SpeedForScore(a)
  {
  }

  /** The two curves part after the first apple: the as-written one is at
      214 after two apples where the linear one is at 216, and it hits the
      floor after 13 apples instead of 90. */
  lemma SpeedCurvesDiffer()
    ensures CompoundedSpeed(2) == 214 && SpeedForScore(2) == 216
    ensures CompoundedSpeed(13) == MaxSpeed && SpeedForScore(13) == 194
    ensures SpeedForScore(89) > MaxSpeed && SpeedForScore(90) == MaxSpeed
  {
  }

  // ----- Reversal guard against the last move ------------------------------

  /** The requested direction and the direction of the last move. */
  datatype Steering = Steering(pending: Dir, moved: Dir)

  /** The steering cannot make the next move a reversal. */
  predicate Safe(st: Steering)
  {
    st.pending != Opposite(st.moved)
  }

  /** A direction key, guarded against the direction the snake last MOVED
      in rather than the pending one. */
  function Request(st: Steering, requested: Dir): (r: Steering)
    ensures r.moved == st.moved
    ensures requested != Opposite(st.moved) ==> r.pending == requested
    ensures requested == Opposite(st.moved) ==> r == st
    ensures Safe(st) ==> Safe(r)
  {
    if requested != Opposite(st.moved) then st.(pending := requested) else st
  }

  /** Any number of keys within one interval. */
  function RequestAll(st: Steering, keys: seq<Dir>): Steering
    decreases |keys|
  {
    if |keys| == 0 then st else RequestAll(Request(st, keys[0]), keys[1..])
  }

  /** However many keys arrive between two ticks, the steering stays safe
      and remembers the last move. */
  lemma {:induction false} RequestAllIsSafe(st: Steering, keys: seq<Dir>)
    requires Safe(st)
    ensures Safe(RequestAll(st, keys)) && RequestAll(st, keys).moved == st.moved
    decreases |keys|
  {
    if |keys| > 0 {
      RequestAllIsSafe(Request(st, keys[0]), keys[1..]);
    }
  }

  /** As written, the same two keys that reverse the snake (`up`, `left`
      while heading right) are harmless here: `left` is refused because
      the last move was to the right. */
  lemma DoubleTurnRefused()
    ensures RequestAll(Steering(Right, Right), [Up, Left]).pending == Up
    ensures ChangeDirection(ChangeDirection(Right, Up), Left) == Left
  {
  }

  // ----- The corrected game -------------------------------------------------

  datatype IGame = IGame(state: State, steer: Steering, running: bool)

  /** A fresh game: default state, heading right as the default snake does. */
  function PrepareIntended(): (g: IGame)
    ensures g.state == Default && Safe(g.steer) && NeckBehind(g) && !g.running
  {
    IGame(ResetState(), Steering(StartDirection, StartDirection), false)
  }

  /** Starting: spawn one apple and arm the tick. The snake and the
      steering are untouched, so the facts that keep the neck safe carry
      over from the prepared game. */
  function StartIntended(g: IGame, spawn: Pos): (r: IGame)
    ensures r.running && r.steer == g.steer
    ensures r.state.apples == g.state.apples + [spawn]
    ensures r.state.snake == g.state.snake && r.state.score == g.state.score
    ensures r.state.speed == g.state.speed
    ensures NeckBehind(g) ==> NeckBehind(r)
  {
    g.(state := AddApple(g.state, spawn), running := true)
  }

  /** Eating with the exact removal and the score-based speed. */
  function EatAppleIntended(s: State, eaten: Pos, spawn: Pos): (r: State)
    requires |s.snake| >= 1
    ensures r.score == s.score + 1
    ensures r.snake == s.snake + [s.snake[0]]
    ensures r.apples == RemoveAppleExact(s.apples, eaten) + [spawn]
    ensures r.speed == SpeedForScore(r.score)
  {
    var removed := s.(apples := RemoveAppleExact(s.apples, eaten));
    var grown := AddSnakePart(removed);
    var scored := AddScorePoint(grown);
    AddApple(SetSpeed(scored, SpeedForScore(scored.score)), spawn)
  }

  /** One interval of the corrected game: the same tick, then either game
      over, or eating, or nothing; the move is recorded in the steering. */
  function StepIntended(g: IGame, width: int, spawn: Pos): (r: IGame)
    requires |g.state.snake| >= 1
    ensures var collides := NextHead(g.state, g.steer.pending) in g.state.snake[..|g.state.snake| - 1];
            && r.running == (g.running && !collides)
            && (collides ==> r.state == Tick(g.state, g.steer.pending, width).state)
            && |r.state.snake| >= 1 && r.state.snake[0] == NextHead(g.state, g.steer.pending)
            && r.steer.moved == g.steer.pending
            && (!collides && NextHead(g.state, g.steer.pending) in g.state.apples ==>
                  r.state == EatAppleIntended(Tick(g.state, g.steer.pending, width).state,
                                              NextHead(g.state, g.steer.pending), spawn))
            && (!collides && NextHead(g.state, g.steer.pending) !in g.state.apples ==>
                  r.state == Tick(g.state, g.steer.pending, width).state)
  {
    var t := Tick(g.state, g.steer.pending, width);
    var steer := Steering(g.steer.pending, g.steer.pending);
    if t.collided then IGame(t.state, steer, false)
    else if t.apple.Some? then IGame(EatAppleIntended(t.state, t.apple.value, spawn), steer, g.running)
    else IGame(t.state, steer, g.running)
  }

  /** The neck lies right behind the head, opposite the last move. */
  predicate NeckBehind(g: IGame)
  {
    |g.state.snake| >= 2 ==> g.state.snake[1] == Shift(g.state.snake[0], Opposite(g.steer.moved))
  }

  /** With the corrected guard the head never turns back onto the neck, and
      the facts that guarantee it hold again after the step, whatever keys
      arrive before the next one. */
  lemma StepIntendedSparesNeck(g: IGame, width: int, spawn: Pos, keys: seq<Dir>)
    requires |g.state.snake| >= 2 && NeckBehind(g) && Safe(g.steer)
    ensures NextHead(g.state, g.steer.pending) != g.state.snake[1]
    ensures var r := StepIntended(g, width, spawn);
            NeckBehind(r) && Safe(r.steer)
            && Safe(RequestAll(r.steer, keys)) && NeckBehind(r.(steer := RequestAll(r.steer, keys)))
  {
    ShiftProperties(g.state.snake[0], g.steer.pending, Opposite(g.steer.moved));
    var r := StepIntended(g, width, spawn);
    ShiftProperties(g.state.snake[0], g.steer.pending, g.steer.pending);
    RequestAllIsSafe(r.steer, keys);
  }

  /** The corrected game keeps its length and speed tied to the score. */
  lemma StepIntendedIsConsistent(g: IGame, width: int, spawn: Pos)
    requires |g.state.snake| == 4 + g.state.score && g.state.speed == SpeedForScore(g.state.score)
    ensures var r := StepIntended(g, width, spawn);
            |r.state.snake| == 4 + r.state.score && r.state.speed == SpeedForScore(r.state.score)
  {
  }

  /** The collision-with-apple case of the as-written game ends here. */
  lemma CollisionWithAppleEnds()
    ensures var s := Default.(snake := [Pos(3, 7), Pos(4, 7), Pos(4, 6), Pos(3, 6), Pos(2, 6)],
                              apples := [Pos(3, 6)]);
            !StepIntended(IGame(s, Steering(Up, Left), true), 20, Pos(0, 0)).running
  {
    var s := Default.(snake := [Pos(3, 7), Pos(4, 7), Pos(4, 6), Pos(3, 6), Pos(2, 6)],
                      apples := [Pos(3, 6)]);
    assert Pos(3, 6) == s.snake[..4][3];
  }
}

=== FILE: snake.dfy ===
/**
  Movement and steering of `createSnake`: the current direction, the guard
  against reversing, and the follow-the-leader move of the body.
 */
module Snake {

  import opened Grid

  /** The `startDirection` the game passes to `createSnake`. */
  const StartDirection: Dir := Right

  /** `changeDirection`: take the requested direction unless it is the
      exact opposite of the current one, in which case nothing changes.
      The guard compares with the CURRENT (pending) direction. */
  function ChangeDirection(current: Dir, requested: Dir): (d: Dir)
    ensures d == requested || d == current
    ensures d != Opposite(current)
    ensures requested != Opposite(current) ==> d == requested
    ensures requested == Opposite(current) ==> d == current
  {
    if Opposite(current) != requested then requested else current
  }

  /** `resetDirection`: back to the start direction, whatever the current
      direction is. */
  function ResetDirection(current: Dir): (d: Dir)
    ensures d == Right
  {
    StartDirection
  }

  /** Reference definition of one move: a new head one cell along `d`, then
      the old body without its last cell. */
  function Moved(body: seq<Pos>, d: Dir): (r: seq<Pos>)
    requires |body| >= 1
    ensures |r| == |body|
    ensures r[0] == Shift(body[0], d)
    ensures forall i :: 1 <= i < |r| ==> r[i] == body[i - 1]
  {
    [Shift(body[0], d)] + body[..|body| - 1]
  }

  /** `getNewPosition`, following the source: copy the body, move the copy's
      head, then give every later segment the old position of the segment
      in front of it. The input is left untouched. */
  method GetNewPosition(body: seq<Pos>, d: Dir) returns (r: seq<Pos>)
    requires |body| >= 1
    ensures r == Moved(body, d)
  {
    r := body[0 := Shift(body[0], d)];
    var i := 1;
    while i < |body|
      invariant 1 <= i <= |body|
      invariant |r| == |body|
      invariant r[0] == Shift(body[0], d)
      invariant forall k :: 1 <= k < i ==> r[k] == body[k - 1]
    {
      r := r[i := body[i - 1]];
      i := i + 1;
    }
  }

  /** Growth: after `addSnakePart` appended a copy of the head, the next move
      keeps the whole pre-growth body behind the new head, so the old tail
      survives and the body is one longer than before the growth. */
  lemma GrowThenMove(body: seq<Pos>, d: Dir)
    requires |body| >= 1
    ensures Moved(body + [body[0]], d) == [Shift(body[0], d)] + body
    ensures |Moved(body + [body[0]], d)| == |body| + 1
  {
  }

  /** Steering is honest for a single request: after `changeDirection` the
      head moves one cell in the requested direction unless that direction
      was the opposite one, in which case it keeps going the old way. */
  lemma SteerThenMove(body: seq<Pos>, current: Dir, requested: Dir)
    requires |body| >= 1
    ensures requested != Opposite(current) ==>
              Moved(body, ChangeDirection(current, requested))[0] == Shift(body[0], requested)
    ensures requested == Opposite(current) ==>
              Moved(body, ChangeDirection(current, requested))[0] == Shift(body[0], current)
  {
  }

  /** One request never turns the snake back onto the cell it has just
      left: if the neck lies behind the head (the body last moved along
      `current`), the head after the request and a move differs from it. */
  lemma SingleRequestSparesNeck(body: seq<Pos>, current: Dir, requested: Dir)
    requires |body| >= 2
    requires body[1] == Shift(body[0], Opposite(current))
    ensures Moved(body, ChangeDirection(current, requested))[0] != body[1]
  {
  }
}

=== FILE: state.dfy ===
/**
  The game-state record of `createState`: score, snake body (head first),
  apples and speed, with its reset operation and its small mutators. The
  record is an immutable value here; every mutator returns the new record.
 */
module GameState {

  import opened Grid

  datatype State = State(score: nat, snake: seq<Pos>, apples: seq<Pos>, speed: int)

  /** Milliseconds between ticks at the start of a game. */
  const DefaultSpeed: int := 220

  /** `defaultState`: score 0, a four-cell snake on row 7 with its head at
      (3, 7), no apples, speed 220. */
  const Default: State :=
    State(0, [Pos(3, 7), Pos(2, 7), Pos(1, 7), Pos(0, 7)], [], DefaultSpeed)

  /** `resetState`: a fresh copy of the default record. */
  function ResetState(): State
  {
    Default
  }

  /** The default snake is a straight line lying to the left of its head,
      so it faces right, the start direction of the snake. */
  lemma DefaultSnakeIsStraight()
    ensures |ResetState().snake| == 4 && ResetState().snake[0] == Pos(3, 7)
    ensures forall i :: 1 <= i < |ResetState().snake| ==>
              ResetState().snake[i] == Shift(ResetState().snake[i - 1], Left)
    ensures ResetState().score == 0 && ResetState().apples == []
  {
  }

  function AddScorePoint(s: State): State
  {
    s.(score := s.score + 1)
  }

  function SetSnake(s: State, body: seq<Pos>): State
  {
    s.(snake := body)
  }

  function SetSpeed(s: State, value: int): State
  {
    s.(speed := value)
  }

  function AddApple(s: State, apple: Pos): State
  {
    s.(apples := s.apples + [apple])
  }

  /** `getSnakeHead`: the first cell of the body. */
  function Head(s: State): (h: Pos)
    requires |s.snake| >= 1
    ensures s.snake == [h] + s.snake[1..]
  {
    s.snake[0]
  }

  /** `addSnakePart`: append a copy of the current head to the tail end.
      The body is then one longer, keeps every old cell in place, and
      briefly holds the head's cell twice. */
  function AddSnakePart(s: State): (r: State)
    requires |s.snake| >= 1
    ensures |r.snake| == |s.snake| + 1
    ensures r.snake[..|s.snake|] == s.snake && r.snake[|s.snake|] == Head(s)
    ensures r.score == s.score && r.apples == s.apples && r.speed == s.speed
  {
    s.(snake := s.snake + [s.snake[0]])
  }

  /** The keep predicate of `removeApple` as written: an apple survives only
      when it differs from the removed one in BOTH coordinates. */
  predicate KeptBy(apple: Pos, removing: Pos)
  {
    apple.x != removing.x && apple.y != removing.y
  }

  /** `removeApple`, as written: filter the apple list with `KeptBy`. Every
      apple sharing a row or a column with `removing` is dropped, not only
      the one at `removing` itself. */
  function RemoveApple(apples: seq<Pos>, removing: Pos): (r: seq<Pos>)
    ensures |r| <= |apples|
    ensures removing !in r
    ensures forall p :: p in r <==> p in apples && KeptBy(p, removing)
  {
    if |apples| == 0 then []
    else
      (if KeptBy(apples[0], removing) then [apples[0]] else [])
      + RemoveApple(apples[1..], removing)
  }

  /** The removal keeps the survivors in their original order: it
      distributes over concatenation, so any split of the list can be
      filtered piecewise. */
  lemma {:induction false} RemoveAppleKeepsOrder(a: seq<Pos>, b: seq<Pos>, removing: Pos)
    ensures RemoveApple(a + b, removing) == RemoveApple(a, removing) + RemoveApple(b, removing)
  {
    if |a| == 0 {
      assert a + b == b;
    } else {
      assert (a + b)[0] == a[0];
      assert (a + b)[1..] == a[1..] + b;
      RemoveAppleKeepsOrder(a[1..], b, removing);
    }
  }

  /** `removeApple` applied to the state record. */
  function RemoveAppleFrom(s: State, removing: Pos): State
  {
    s.(apples := RemoveApple(s.apples, removing))
  }
}
